=== FILE: README.md ===
# Raffle records and raffle listing, modelled in Dafny

This project models two pure slices of a Django raffle ("rifa") application.

- **`main/models.py`** (`models.dfy`, module `Models`). A raffle (`Rifa`) has a status. The status is one of `activa`, `completada`, `cancelada` or `sorteada`. A raffle also has a price, a ticket count (`cantidad_numeros`), a per-user limit, a draw time and its numbered tickets (`Numero`). A ticket's state is one of `disponible`, `reservado` or `vendido`.
  - The model covers the read-side aggregates. These are the sold count, the available count, the percent sold and "is open" (`esta_activa`).
  - It covers the three per-ticket state properties.
  - It covers the field validators and defaults, and the `(rifa, numero)` uniqueness constraint.
  - It covers the slug rule of `save`.
  - It covers the defaults of `Transaccion`.
- **`main/views.py`** (`views.dfy`, module `Views`). This is `mis_rifas_view`. It runs an optional case-insensitive search on name and description and an optional status filter, which the sentinel `'all'` switches off. It then picks an ordering key from an allow-list of eight, falling back to `-fecha_creacion`. It shows pages of 12 and counts raffles by status over all raffles.
- `seqs.dfy` (module `Seqs`) holds the shared sequence vocabulary. `Count` and `Filter` stand for a queryset's `.filter(...).count()`. `Contains` stands for substring search. Each is tied to an independent definition: `CountIsPositionsSize` (the number of matching positions), `FilterMultiset` (element multiplicities) and `ContainsIff` (an occurrence position).
- `results.dfy` (module `Results`) holds `Option`, for nullable fields and absent parameters, and `Result`, for a query that may raise.

Status fields are Django `CharField`s with `choices`. The database stores any string, and only validation restricts it to a choice, so they are strings here. `IsChoice` is that validation. Prices are `DecimalField(max_digits=10, decimal_places=2)`, held as an integer number of hundredths. Timestamps are integers. The percentage is an exact `real`.

The abstracted collaborators are function parameters:

- `slugify` is `Save`'s `slugify` parameter.
- The database's case folding for `icontains` is `fold`.
- `order_by` is `orderBy`.
- "now" is `EstaActiva`'s `now` parameter.

The `page` query parameter arrives already classified as an integer or "not an integer" (`PageArg`). `Paginator.get_page` then picks the page shown. A non-integer gives page 1. A number below 1 or past the end gives the last page.

The code has no ticket inventory generation, no ticket state transitions, no computation of transaction totals or codes, and no winner checks, so none of these are modelled. Tickets carry only a `comprador` user id, and `monto_total` is a plain stored field.

## Model

| member | source | states |
|---|---|---|
| Models.Vendido | main/models.py:124-126 | The `vendido` property can hold only when the stored state is one of the ticket state choices. |
| Models.Disponible | main/models.py:128-130 | The `disponible` property can hold only when the stored state is one of the ticket state choices. |
| Models.Reservado | main/models.py:132-134 | The `reservado` property can hold only when the stored state is one of the ticket state choices. |
| Models.NumeroValid | main/models.py:96-100 | A ticket passes the `choices` and `max_length=20` validation of its state if and only if exactly one of the three state properties holds. |
| Models.NewNumero | main/models.py:95-109 | A new ticket is in state `disponible`, which is a valid choice. It is neither sold nor reserved, and it has no dates and no buyer. |
| Models.ExactlyOneState | main/models.py:124-134 | Exactly one of `vendido`/`disponible`/`reservado` holds if and only if the stored state is one of the three choices. For any other string, none of them holds. |
| Models.StateCountsPartition | main/models.py:84-88 | Over tickets in valid states, the sold, available and reserved counts add up to the number of tickets. |
| Models.PrecioValid | main/models.py:20-24 | The intended price check: the price in currency units lies in [0.01, 100000000), that is, at least 0.01 and within the eight integer digits of `max_digits=10, decimal_places=2`. |
| Models.PrecioValidAsWritten | main/models.py:20-24 | `MinValueValidator(0.01)` as written compares against the binary double nearest 0.01. It accepts a price if and only if 0.02 ≤ price < 100000000. |
| Models.PrecioValidationsDiffer | main/models.py:23 | The intended and as-written price checks disagree on 0.01 and on no other price. |
| Models.CantidadValid | main/models.py:25-28 | `MinValueValidator(1)` and `MaxValueValidator(100000)` together accept exactly the counts in [1, 100000]. |
| Models.NumerosPorUsuarioValid | main/models.py:40-44 | `MinValueValidator(1)` accepts exactly the per-user limits ≥ 1. |
| Models.NumberSetSize | main/models.py:114 | A ticket list never has more distinct numbers than tickets. `unique_together = ['rifa', 'numero']` (`UniqueNumeros`) holds for it if and only if it has exactly as many distinct numbers as tickets. |
| Models.RifaValidConsequences | main/models.py:14-44 | A raffle passing every field validator and the ticket uniqueness constraint has one of the four raffle statuses. Its sold, available and reserved tickets partition its tickets, and its tickets carry distinct numbers. |
| Models.RifaStatusChoices | main/models.py:7-12 | A status passes the `choices` validation if and only if it is `activa`, `completada`, `cancelada` or `sorteada`. |
| Models.NewRifa | main/models.py:15-44 | Defaults: 100 tickets, status `activa`, 10 per user, blank slug, no prize, no tickets. The count, status and per-user defaults pass their validators. The blank slug does not pass `SlugField` validation; `save` fills it. |
| Models.ValidRifaAggregates | main/models.py:20-44 | A raffle that passes the intended validation has price ≥ 0.01, 1 ≤ `cantidad_numeros` ≤ 100000 and per-user limit ≥ 1. Its price passes the validator as written exactly when it is not 0.01. With ticket numbers in range, its sold and available counts lie in [0, 100000] and add up to the count, and its percentage lies in [0, 100]. |
| Models.NumerosVendidos | main/models.py:58-60 | The sold count never exceeds the number of tickets. |
| Models.NumerosVendidosCountsSold | main/models.py:58-60 | The sold count is the number of positions holding a ticket in state `vendido`. It equals the number of tickets if and only if every ticket is sold. |
| Models.TicketsAtMostCantidad | main/models.py:114 | With unique numbers in `1..cantidad_numeros`, a raffle has at most `cantidad_numeros` tickets. When it has exactly that many, its numbers are exactly `1..cantidad_numeros`. |
| Models.NumerosDisponibles | main/models.py:62-64 | The available count lies between `cantidad_numeros` minus the number of tickets and `cantidad_numeros`. |
| Models.DisponiblesAccount | main/models.py:62-64 | Available plus sold always equals `cantidad_numeros`. Available is the count of numbers with no ticket plus the count of tickets not sold. With unique in-range numbers, available is never negative. |
| Models.DisponiblesOfValidRifa | main/models.py:62-64 | For a valid raffle with numbers in range, available is the count of numbers with no ticket plus the `disponible` and `reservado` tickets, and it lies in [0, 100000]. |
| Models.SoldPercent | main/models.py:66-70 | With a count of 0 the result is 0, reached without any division. Otherwise, result × count = sold × 100. |
| Models.PorcentajeVendido | main/models.py:66-70 | The percentage is never negative, and it is at most 100 when no more tickets are sold than `cantidad_numeros`. With a count of 0 it is 0. Otherwise, percentage × count = sold × 100. |
| Models.PorcentajeBounds | main/models.py:66-70 | When sold ≤ count, the percentage lies in [0, 100]. It is 100 exactly when the count is positive and every counted ticket is sold. |
| Models.PorcentajeOfWellNumbered | main/models.py:66-70 | For unique in-range numbers, the percentage is in [0, 100]. It is 100 exactly when every number `1..cantidad_numeros` has a ticket and all of them are sold. |
| Models.EstaActiva | main/models.py:72-74 | An open raffle's status is always a valid choice (`activa`). |
| Models.EstaActivaWindow | main/models.py:72-74 | A raffle is open at time t if and only if its status is `activa` and t is before the draw time. A raffle in any status other than `activa` is never open. An open raffle was open at every earlier time. Once the draw time is reached, it is never open again. |
| Models.Save | main/models.py:76-80 | Saving changes nothing but the slug. A non-empty slug is kept. An empty slug becomes `slugify(nombre)`. |
| Models.SaveIdempotent | main/models.py:76-80 | Saving twice equals saving once. Saving leaves the sold count and the percentage unchanged. |
| Models.NewTransaccion | main/models.py:155-169 | A new transaction is `pendiente`, which is a valid choice. Its code and payment method are blank and it has no tickets. It passes validation if and only if its total fits `max_digits=10, decimal_places=2`. |
| Models.TransaccionValid | main/models.py:158-169 | A transaction passes validation if and only if its total fits `max_digits=10, decimal_places=2`, its status is `pendiente`, `completada`, `cancelada` or `rechazada`, and its code and payment method are at most 50 characters. |
| Models.BlankCodesCollide | main/models.py:164-168 | Two transactions that both keep a blank code violate the uniqueness of `codigo_transaccion`. |
| Models.FilteredCount | main/models.py:60 | A keyword filter fails with `FieldError` exactly when the keyword is not a lookup name of `Numero`. Otherwise its value is the number of ticket positions whose row matches, a set-of-positions definition independent of the recursive count. |
| Models.NumerosVendidosAsWritten | main/models.py:58-60 | As written, the sold count filters on the property `vendido` and fails for every raffle. |
| Models.NumerosDisponiblesAsWritten | main/models.py:62-64 | As written, the available count reads the failing sold count with no guard, so it fails with `FieldError` for every raffle. |
| Models.PorcentajeVendidoAsWritten | main/models.py:66-70 | As written, the percentage is 0 when the count is 0 and fails with `FieldError` otherwise. |
| Models.NumerosVendidosIsEstadoFilter | main/models.py:58-60 | The corrected query `filter(estado='vendido')` resolves, and its count is `NumerosVendidos`. |
| Seqs.ContainsIff | main/views.py:21-22 | Substring containment holds if and only if the needle occurs at some position of the text. |
| Seqs.FilterMultiset | main/views.py:19-27 | A queryset filter keeps every row that passes its condition, as often as it occurs, and no other row. |
| Views.PageParam | main/views.py:10 | The page parameter is the request's value when present. When absent it is 1, and the first page is shown whatever the number of results. |
| Views.SortParam | main/views.py:11 | The sort parameter is the request's value when present. When absent it is the allow-listed default, newest first. |
| Views.EstadoParam | main/views.py:12 | The status parameter is the request's value when present. When absent, the status step keeps every raffle. |
| Views.QueryParam | main/views.py:13 | The search parameter is the request's value when present. When absent, the search step keeps every raffle, whatever the case folding. |
| Views.ApplySearch | main/views.py:19-23 | An empty query keeps the list unchanged. Otherwise the result is exactly the listed raffles whose folded name or description contains the folded query. |
| Views.ApplyEstado | main/views.py:25-27 | `'all'` keeps the list unchanged. Any other value keeps exactly the raffles with that status. |
| Views.SelectedIsOneFilter | main/views.py:16-27 | Search followed by status filter is one order-preserving filter of all raffles. A raffle is kept if and only if it is stored and passes both conditions. |
| Views.EffectiveSort | main/views.py:30-44 | The key used is always in the allow-list. It is the requested key when that key is allowed, and `-fecha_creacion` otherwise. |
| Views.SoldCountKeysNotOrderable | main/views.py:37-38 | Two allow-listed keys name `numeros_vendidos`, which is not a column or relation of `Rifa`. |
| Views.UnknownSortReportedAsRequested | main/views.py:41-60 | For a key outside the allow-list, the listing is ordered newest-first, but `current_sort` reports the raw requested key. |
| Views.NumPages | main/views.py:47 | There is always at least one page, and exactly one for an empty list (`allow_empty_first_page`). The pages hold every item, and every page before the last is non-empty. |
| Views.ResolvePage | main/views.py:48 | The page shown is always in `1..num_pages`. An in-range request is kept, an out-of-range integer gives the last page, and a non-integer gives page 1. |
| Views.PageItems | main/views.py:47-48 | Page k is the slice from (k−1)·12 up to min(k·12, n) of the ordered list. It holds at most 12 raffles, and exactly 12 when it is not the last page. |
| Views.PagesCoverList | main/views.py:47-48 | Item i of the ordered list is item i mod 12 of page i div 12 + 1. |
| Views.StatusCount | main/views.py:51-53 | A status count never exceeds the number of stored raffles. |
| Views.MisRifasView | main/views.py:8-66 | The page shown is `get_page` of the requested page: its number is the resolved page, always in range and equal to the request when that is in range, and its items are exactly that page of the ordered selection, at most 12 raffles. The total is the number of stored raffles, and the active and completed counts are the `activa` and `completada` counts over all stored raffles, with active + completed ≤ total. The current sort, filter and query are the raw parameters, and the sort options are the allow-list. |
| Views.StatisticsIgnoreRequest | main/views.py:51-53 | The total, active and completed counts are the same for every request, whatever its search, filter, ordering or page. |
| Views.PageShowsOnlySelected | main/views.py:16-48 | When the ordering only rearranges rows, every raffle on the page is stored and passes both the search and the status filter. |

## Findings

| source | as written | input that shows it | evidently intended | confidence | as-written member | corrected member |
|---|---|---|---|---|---|---|
| main/models.py:58-60 | `self.numeros.filter(vendido=True)` filters on `vendido`. That is a Python property of `Numero`, not a field, so Django raises `FieldError` while it builds the query. `numeros_disponibles` reads it with no guard and fails for every raffle. `porcentaje_vendido` fails whenever `cantidad_numeros > 0`. | Any raffle, for example one with no tickets and `cantidad_numeros = 100`. | Count the tickets whose state is `vendido`, that is `filter(estado='vendido')`. | high; not executed | Models.NumerosVendidosAsWritten | Models.NumerosVendidos |
| main/models.py:20-24 | `MinValueValidator(0.01)` has a float limit. Django rejects a value when `value < limit`, and Python compares the `Decimal` price with the float exactly. The float 0.01 is 5764607523034235 / 2^59, slightly above 0.01, so a price of exactly 0.01 is rejected. | `precio_numero = Decimal('0.01')`. | Accept 0.01 and above, as `MinValueValidator(Decimal('0.01'))` would. | high; not executed | Models.PrecioValidAsWritten | Models.PrecioValid |

Everything else in the model uses the corrected members. `Models.NumerosDisponiblesAsWritten` and `Models.PorcentajeVendidoAsWritten` carry the first failure into the two properties that read the sold count. `Models.NumerosVendidosCountsSold` proves the intended meaning of the sold count. `Models.PrecioValidationsDiffer` shows that 0.01 is the only price on which the two price checks disagree.

## Left out

- Persistence. The Django ORM, migrations, indexes, cascade deletes and `Meta.ordering` are not modelled. Uniqueness of `(rifa, numero)` is a predicate over one raffle's ticket list. The `unique=True` on the slug, and the database error a slug collision raises, are not modelled.
- The numbers `1..cantidad_numeros`. The application never enforces them, so lemmas that need them take `NumbersInRange` as a precondition.
- `slugify`. It is a parameter of `Save`, with no behaviour assumed.
- `timezone.now()`. It is the `now` parameter.
- Case folding for `icontains`. It is the `fold` parameter, and the model does not depend on the database's collation.
- Executing `order_by`. The ordered list is `orderBy(rows, key)`. The ORM cannot order by the keys `-numeros_vendidos` and `numeros_vendidos`, because they name a property (`Views.SoldCountKeysNotOrderable`). For those two allow-listed keys the view raises `FieldError` and renders nothing, while `MisRifasView` returns a page ordered by `orderBy`. No single correction is evident, so this is not listed as a finding.
- Reading the `page` query string as an integer. It is represented by `PageArg`. The paginator's `orphans` and `allow_empty_first_page` stay at their defaults, 0 and true.
- `render`, `login_required`, `home_view`, templates, image upload (`imagen`), `fecha_actualizacion` and `fecha_creacion` auto-timestamps, and `__str__` methods. These are presentation or framework behaviour.
- Floating-point rounding of `porcentaje_vendido`. The percentage is computed in exact `real` arithmetic. The source returns the integer 0 in the zero-count case, and that is modelled as `0.0`.
- The upper bound of `PositiveIntegerField`. This bound depends on the database backend. Those fields are `nat` here.
- `Ganador` and the rest of `Transaccion`. They are declarations with no logic. Only the `Transaccion` defaults, its validators and the uniqueness of its code are modelled. There are no transaction totals, no codes generated and no ticket state transitions, because none of these exist in the code.
- Models.RifaValidConsequences: `RifaValid` uses the intended price check `PrecioValid`, which accepts 0.01. The check as written is `PrecioValidAsWritten` (see Findings).
- `main/admin.py`. It is declarative admin configuration only.
- `main/urls.py`. It is routing only. It names `gestion_numeros_rifa`, `actualizar_estado_numero` and `obtener_datos_numero`, which are not part of this model because the views file does not define them.

=== FILE: models.dfy ===
/**
 The records of the raffle application (`main/models.py`): raffles (`Rifa`)
 owning numbered tickets (`Numero`), purchase transactions (`Transaccion`),
 their field validators and defaults, and the read-side aggregates a raffle
 derives from the live state of its tickets.

 Status fields are Django `CharField`s with a `choices` list; the database
 stores any string, and only validation restricts it to a choice, so they
 are strings here and `IsChoice` is the validation. Money is a
 `DecimalField` with two decimal places, held as an integer number of
 hundredths. Timestamps are integers.
 */
module Models {
  import opened Results
  import opened Seqs

  /** A Django `choices` list: stored value and display label. */
  type Choices = seq<(string, string)>

  predicate IsChoice(choices: Choices, v: string)
  {
    exists i :: 0 <= i < |choices| && choices[i].0 == v
  }

  // ---------------------------------------------------------------------
  // Choices and defaults
  // ---------------------------------------------------------------------

  const RifaActiva: string := "activa"
  const RifaCompletada: string := "completada"
  const RifaCancelada: string := "cancelada"
  const RifaSorteada: string := "sorteada"

  const RifaEstados: Choices := [
    (RifaActiva, "Activa"),
    (RifaCompletada, "Completada"),
    (RifaCancelada, "Cancelada"),
    (RifaSorteada, "Sorteada")
  ]

  const NumeroDisponible: string := "disponible"
  const NumeroReservado: string := "reservado"
  const NumeroVendido: string := "vendido"

  const NumeroEstados: Choices := [
    (NumeroDisponible, "Disponible"),
    (NumeroReservado, "Reservado"),
    (NumeroVendido, "Vendido")
  ]

  const TransaccionPendiente: string := "pendiente"
  const TransaccionCompletada: string := "completada"
  const TransaccionCancelada: string := "cancelada"
  const TransaccionRechazada: string := "rechazada"

  const TransaccionEstados: Choices := [
    (TransaccionPendiente, "Pendiente"),
    (TransaccionCompletada, "Completada"),
    (TransaccionCancelada, "Cancelada"),
    (TransaccionRechazada, "Rechazada")
  ]

  const DefaultCantidadNumeros: nat := 100
  const DefaultNumerosPorUsuario: nat := 10

  // Validator bounds. Prices are in hundredths: 0.01 is 1, and
  // `max_digits=10` with two decimal places leaves eight integer digits.
  const MinPrecio: int := 1
  const PrecioLimit: int := 10_000_000_000

  // The binary double nearest to 0.01 is exactly FloatCentNum / FloatCentDen
  // (the denominator is 2^59); it is slightly larger than 0.01.
  const FloatCentNum: int := 5764607523034235
  const FloatCentDen: int := 576460752303423488
  const MinCantidad: int := 1
  const MaxCantidad: int := 100000
  const MinNumerosPorUsuario: int := 1
  const MaxNombre: int := 100
  const MaxSlug: int := 100
  const MaxEstado: int := 20
  const MaxCodigo: int := 50
  const MaxMetodoPago: int := 50

  // ---------------------------------------------------------------------
  // Numero
  // ---------------------------------------------------------------------

  /** One numbered ticket. `comprador` is the buying user's id, if any. */
  datatype Numero = Numero(
    numero: nat,
    estado: string,
    fechaReserva: Option<int>,
    fechaCompra: Option<int>,
    comprador: Option<int>)

  /** The `vendido` property; it can hold only for a state that is a valid choice. */
  function Vendido(n: Numero): (b: bool)
    ensures b ==> IsChoice(NumeroEstados, n.estado)
  {
    assert NumeroEstados[2].0 == NumeroVendido;
    n.estado == NumeroVendido
  }

  /** The `disponible` property; it can hold only for a state that is a valid choice. */
  function Disponible(n: Numero): (b: bool)
    ensures b ==> IsChoice(NumeroEstados, n.estado)
  {
    assert NumeroEstados[0].0 == NumeroDisponible;
    n.estado == NumeroDisponible
  }

  /** The `reservado` property; it can hold only for a state that is a valid choice. */
  function Reservado(n: Numero): (b: bool)
    ensures b ==> IsChoice(NumeroEstados, n.estado)
  {
    assert NumeroEstados[1].0 == NumeroReservado;
    n.estado == NumeroReservado
  }

  predicate NoVendido(n: Numero) { !Vendido(n) }

  /**
   The ticket's state passes the `choices` and `max_length` validation:
   exactly when exactly one of the three state properties holds.
   */
  function NumeroValid(n: Numero): (ok: bool)
    ensures ok <==> StateFlags(n) == 1
  {
    ExactlyOneState(n);
    IsChoice(NumeroEstados, n.estado) && |n.estado| <= MaxEstado
  }

  /** How many of the three state properties hold. */
  function StateFlags(n: Numero): nat
  {
    (if Vendido(n) then 1 else 0) + (if Disponible(n) then 1 else 0) + (if Reservado(n) then 1 else 0)
  }

  /** A freshly created ticket: state defaults to `disponible`, nothing else is set. */
  function NewNumero(numero: nat): (n: Numero)
    ensures n.numero == numero
    ensures Disponible(n) && !Reservado(n) && !Vendido(n)
    ensures NumeroValid(n)
    ensures n.fechaReserva.None? && n.fechaCompra.None? && n.comprador.None?
  {
    assert NumeroEstados[0].0 == NumeroDisponible;
    Numero(numero, NumeroDisponible, None, None, None)
  }

  /**
   Exactly one of `vendido`, `disponible`, `reservado` holds precisely when
   the stored state is one of the three choices; for any other stored string
   none of them holds.
   */
  lemma ExactlyOneState(n: Numero)
    ensures IsChoice(NumeroEstados, n.estado) <==> StateFlags(n) == 1
    ensures !IsChoice(NumeroEstados, n.estado) ==> StateFlags(n) == 0
  {
    if IsChoice(NumeroEstados, n.estado) {
      var i :| 0 <= i < |NumeroEstados| && NumeroEstados[i].0 == n.estado;
      assert i == 0 || i == 1 || i == 2;
    } else {
      assert NumeroEstados[0].0 == NumeroDisponible;
      assert NumeroEstados[1].0 == NumeroReservado;
      assert NumeroEstados[2].0 == NumeroVendido;
    }
  }

  /** Over tickets in valid states, sold, available and reserved tickets partition the list. */
  lemma {:induction false} StateCountsPartition(ns: seq<Numero>)
    requires forall i :: 0 <= i < |ns| ==> NumeroValid(ns[i])
    ensures Count(ns, Vendido) + Count(ns, Disponible) + Count(ns, Reservado) == |ns|
  {
    if |ns| > 0 {
      ExactlyOneState(ns[0]);
      StateCountsPartition(ns[1..]);
    }
  }

  // ---------------------------------------------------------------------
  // Rifa
  // ---------------------------------------------------------------------

  /** A raffle and the tickets that reference it (`related_name='numeros'`). */
  datatype Rifa = Rifa(
    nombre: string,
    slug: string,
    descripcion: string,
    fechaCreacion: int,
    fechaSorteo: int,
    precioNumero: int,
    cantidadNumeros: nat,
    estado: string,
    premioPrincipal: Option<string>,
    numerosPorUsuario: nat,
    numeros: seq<Numero>)

  /** A raffle built with every defaulted field left at its default. */
  function NewRifa(nombre: string, descripcion: string, fechaCreacion: int, fechaSorteo: int,
                   precioNumero: int): (r: Rifa)
    ensures r.nombre == nombre && r.descripcion == descripcion && r.precioNumero == precioNumero
    ensures r.fechaCreacion == fechaCreacion && r.fechaSorteo == fechaSorteo
    ensures r.estado == RifaActiva && IsChoice(RifaEstados, r.estado)
    ensures CantidadValid(r.cantidadNumeros) && r.cantidadNumeros == DefaultCantidadNumeros
    ensures NumerosPorUsuarioValid(r.numerosPorUsuario) && r.numerosPorUsuario == DefaultNumerosPorUsuario
    ensures r.slug == "" && !SlugValid(r.slug) && r.premioPrincipal.None? && r.numeros == []
  {
    assert RifaEstados[0].0 == RifaActiva;
    Rifa(nombre, "", descripcion, fechaCreacion, fechaSorteo, precioNumero,
         DefaultCantidadNumeros, RifaActiva, None, DefaultNumerosPorUsuario, [])
  }

  /**
   Django's `MinValueValidator(limit)` rejects `value < limit`, and
   `MaxValueValidator(limit)` rejects `value > limit`.
   */
  predicate MinValue(value: int, limit: int) { !(value < limit) }

  predicate MaxValue(value: int, limit: int) { !(value > limit) }

  /**
   The intended price validation: at least 0.01, and within the eight integer
   digits `max_digits=10, decimal_places=2` leave.
   */
  function PrecioValid(precio: int): (ok: bool)
    ensures ok <==> 0.01 <= (precio as real) / 100.0 < 100000000.0
  {
    MinValue(precio, MinPrecio) && precio < PrecioLimit
  }

  /**
   The price validation as written: `MinValueValidator(0.01)` compares the
   decimal price with the binary double nearest to 0.01, which is slightly
   above 0.01, so the smallest price it accepts is 0.02.
   */
  function PrecioValidAsWritten(precio: int): (ok: bool)
    ensures ok <==> 2 <= precio < PrecioLimit
  {
    // precio / 100 >= FloatCentNum / FloatCentDen, cleared of denominators.
    precio * FloatCentDen >= 100 * FloatCentNum && precio < PrecioLimit
  }

  /** The two price validations disagree on exactly one price: 0.01. */
  lemma PrecioValidationsDiffer(precio: int)
    ensures PrecioValid(1) && !PrecioValidAsWritten(1)
    ensures precio != 1 ==> (PrecioValid(precio) <==> PrecioValidAsWritten(precio))
  {
  }

  /** `cantidad_numeros` passes `MinValueValidator(1)` and `MaxValueValidator(100000)`. */
  function CantidadValid(cantidad: int): (ok: bool)
    ensures ok <==> MinCantidad <= cantidad <= MaxCantidad
  {
    MinValue(cantidad, MinCantidad) && MaxValue(cantidad, MaxCantidad)
  }

  /** `numeros_por_usuario` passes `MinValueValidator(1)`: a user may buy at least one number. */
  function NumerosPorUsuarioValid(k: int): (ok: bool)
    ensures ok <==> k >= MinNumerosPorUsuario
  {
    MinValue(k, MinNumerosPorUsuario)
  }

  /** Characters Django's slug validator accepts. */
  predicate SlugChar(c: char)
  {
    ('a' <= c <= 'z') || ('A' <= c <= 'Z') || ('0' <= c <= '9') || c == '-' || c == '_'
  }

  predicate SlugValid(s: string)
  {
    1 <= |s| <= MaxSlug && forall i :: 0 <= i < |s| ==> SlugChar(s[i])
  }

  /** `unique_together = ['rifa', 'numero']`, for the tickets of one raffle. */
  predicate UniqueNumeros(ns: seq<Numero>)
  {
    forall i, j :: 0 <= i < j < |ns| ==> ns[i].numero != ns[j].numero
  }

  /**
   Every ticket number lies in `1..cantidad_numeros`. The application never
   checks this; lemmas that need it take it as a precondition.
   */
  predicate NumbersInRange(r: Rifa)
  {
    forall i :: 0 <= i < |r.numeros| ==> 1 <= r.numeros[i].numero <= r.cantidadNumeros
  }

  /** Every field validator of `Rifa` and its tickets passes, and ticket numbers are unique. */
  predicate RifaValid(r: Rifa)
  {
    && 1 <= |r.nombre| <= MaxNombre
    && SlugValid(r.slug)
    && |r.descripcion| >= 1
    && PrecioValid(r.precioNumero)
    && CantidadValid(r.cantidadNumeros)
    && IsChoice(RifaEstados, r.estado) && |r.estado| <= MaxEstado
    && NumerosPorUsuarioValid(r.numerosPorUsuario)
    && (forall i :: 0 <= i < |r.numeros| ==> NumeroValid(r.numeros[i]))
    && UniqueNumeros(r.numeros)
  }

  /** The status values `IsChoice` accepts for a raffle. */
  lemma RifaStatusChoices(e: string)
    ensures IsChoice(RifaEstados, e) <==> e in {RifaActiva, RifaCompletada, RifaCancelada, RifaSorteada}
  {
    assert RifaEstados[0].0 == RifaActiva && RifaEstados[1].0 == RifaCompletada;
    assert RifaEstados[2].0 == RifaCancelada && RifaEstados[3].0 == RifaSorteada;
  }

  /**
   A raffle passing validation has one of the four raffle statuses, its sold,
   available and reserved tickets partition its tickets, and its tickets
   carry as many distinct numbers as there are tickets.
   */
  lemma RifaValidConsequences(r: Rifa)
    requires RifaValid(r)
    ensures r.estado in {RifaActiva, RifaCompletada, RifaCancelada, RifaSorteada}
    ensures Count(r.numeros, Vendido) + Count(r.numeros, Disponible) + Count(r.numeros, Reservado) == |r.numeros|
    ensures |NumberSet(r.numeros)| == |r.numeros|
  {
    RifaStatusChoices(r.estado);
    StateCountsPartition(r.numeros);
    NumberSetSize(r.numeros);
  }

  /** Sold tickets: the tickets whose state is `vendido`. */
  function NumerosVendidos(r: Rifa): (v: nat)
    ensures v <= |r.numeros|
  {
    Count(r.numeros, Vendido)
  }

  /** Total tickets minus sold ones; reserved and never-created numbers count as available. */
  function NumerosDisponibles(r: Rifa): (d: int)
    ensures r.cantidadNumeros - |r.numeros| <= d <= r.cantidadNumeros
  {
    r.cantidadNumeros - NumerosVendidos(r)
  }

  /** `sold` out of `total` in percent, computed exactly; 0 without dividing when `total` is 0. */
  function SoldPercent(sold: nat, total: nat): (p: real)
    ensures 0.0 <= p
    ensures sold <= total ==> p <= 100.0
    ensures total == 0 ==> p == 0.0
    ensures total > 0 ==> p * (total as real) == (sold as real) * 100.0
  {
    if total == 0 then 0.0 else (sold as real / total as real) * 100.0
  }

  /** Sold share of the raffle's tickets in percent. */
  function PorcentajeVendido(r: Rifa): (p: real)
    ensures 0.0 <= p
    ensures NumerosVendidos(r) <= r.cantidadNumeros ==> p <= 100.0
    ensures r.cantidadNumeros == 0 ==> p == 0.0
    ensures r.cantidadNumeros > 0 ==> p * (r.cantidadNumeros as real) == (NumerosVendidos(r) as real) * 100.0
  {
    SoldPercent(NumerosVendidos(r), r.cantidadNumeros)
  }

  /** The raffle is still taking part: status `activa` and the draw is in the future. */
  function EstaActiva(r: Rifa, now: int): (open: bool)
    ensures open ==> IsChoice(RifaEstados, r.estado)
  {
    assert RifaEstados[0].0 == RifaActiva;
    r.estado == RifaActiva && now < r.fechaSorteo
  }

  /** Saving fills an empty slug from the name and leaves a non-empty one alone. */
  function Save(r: Rifa, slugify: string -> string): (saved: Rifa)
    ensures saved.(slug := r.slug) == r
    ensures r.slug != "" ==> saved.slug == r.slug
    ensures r.slug == "" ==> saved.slug == slugify(r.nombre)
  {
    if r.slug == "" then r.(slug := slugify(r.nombre)) else r
  }

  /** The set of ticket numbers in `ns`. */
  function NumberSet(ns: seq<Numero>): (s: set<nat>)
    ensures forall i :: 0 <= i < |ns| ==> ns[i].numero in s
    ensures forall x :: x in s ==> exists i :: 0 <= i < |ns| && ns[i].numero == x
  {
    if |ns| == 0 then {} else {ns[0].numero} + NumberSet(ns[1..])
  }

  /** The numbers `1..c`. */
  function UpTo(c: nat): (s: set<nat>)
    ensures forall x :: x in s <==> 1 <= x <= c
    ensures |s| == c
  {
    if c == 0 then {} else UpTo(c - 1) + {c}
  }

  /** A list has as many different numbers as entries exactly when no number repeats. */
  lemma NumberSetSize(ns: seq<Numero>)
    ensures |NumberSet(ns)| <= |ns|
    ensures UniqueNumeros(ns) <==> |NumberSet(ns)| == |ns|
  {
    if UniqueNumeros(ns) {
      DistinctNumberSetSize(ns);
    } else {
      RepeatedNumberSetSize(ns);
    }
  }

  lemma {:induction false} DistinctNumberSetSize(ns: seq<Numero>)
    requires UniqueNumeros(ns)
    ensures |NumberSet(ns)| == |ns|
  {
    if |ns| > 0 {
      var tail := ns[1..];
      assert UniqueNumeros(tail) by {
        forall i, j | 0 <= i < j < |tail|
          ensures tail[i].numero != tail[j].numero
        {
          assert tail[i] == ns[i + 1] && tail[j] == ns[j + 1];
        }
      }
      DistinctNumberSetSize(tail);
      forall i | 0 <= i < |tail|
        ensures tail[i].numero != ns[0].numero
      {
        assert tail[i] == ns[i + 1];
      }
      assert ns[0].numero !in NumberSet(tail);
    }
  }

  lemma {:induction false} RepeatedNumberSetSize(ns: seq<Numero>)
    ensures |NumberSet(ns)| <= |ns|
    ensures !UniqueNumeros(ns) ==> |NumberSet(ns)| < |ns|
  {
    if |ns| > 0 {
      var tail := ns[1..];
      RepeatedNumberSetSize(tail);
      if !UniqueNumeros(ns) {
        var i, j :| 0 <= i < j < |ns| && ns[i].numero == ns[j].numero;
        if i == 0 {
          assert ns[j] == tail[j - 1];
          assert ns[0].numero in NumberSet(tail);
        } else {
          assert tail[i - 1] == ns[i] && tail[j - 1] == ns[j];
          assert !UniqueNumeros(tail);
        }
      }
    }
  }

  /** Unique ticket numbers drawn from `1..cantidad_numeros` are at most `cantidad_numeros` tickets. */
  lemma TicketsAtMostCantidad(r: Rifa)
    requires UniqueNumeros(r.numeros) && NumbersInRange(r)
    ensures |r.numeros| <= r.cantidadNumeros
    ensures |r.numeros| == r.cantidadNumeros ==> NumberSet(r.numeros) == UpTo(r.cantidadNumeros)
  {
    var s := NumberSet(r.numeros);
    var u := UpTo(r.cantidadNumeros);
    NumberSetSize(r.numeros);
    forall x | x in s
      ensures x in u
    {
      var i :| 0 <= i < |r.numeros| && r.numeros[i].numero == x;
    }
    SubsetSize(s, u);
  }

  /** A subset is no larger than its superset, and equal to it when as large. */
  lemma SubsetSize(s: set<nat>, u: set<nat>)
    requires s <= u
    ensures |s| <= |u|
    ensures |s| == |u| ==> s == u
  {
    assert u == s + (u - s);
    assert |u| == |s| + |u - s|;
    if |s| == |u| {
      assert |u - s| == 0;
    }
  }

  /**
   Available plus sold is always the configured ticket count; under unique
   in-range numbers the available count is never negative and is made up of
   the numbers that have no ticket plus the tickets that are not sold.
   */
  lemma DisponiblesAccount(r: Rifa)
    ensures NumerosDisponibles(r) + NumerosVendidos(r) == r.cantidadNumeros
    ensures NumerosDisponibles(r) == (r.cantidadNumeros - |r.numeros|) + Count(r.numeros, NoVendido)
    ensures UniqueNumeros(r.numeros) && NumbersInRange(r) ==> NumerosDisponibles(r) >= 0
  {
    CountComplement(r.numeros, Vendido, NoVendido);
    if UniqueNumeros(r.numeros) && NumbersInRange(r) {
      TicketsAtMostCantidad(r);
    }
  }

  /** For a valid raffle, the available count is the missing numbers plus `disponible` and `reservado` tickets. */
  lemma DisponiblesOfValidRifa(r: Rifa)
    requires RifaValid(r) && NumbersInRange(r)
    ensures NumerosDisponibles(r) ==
            (r.cantidadNumeros - |r.numeros|) + Count(r.numeros, Disponible) + Count(r.numeros, Reservado)
    ensures 0 <= NumerosDisponibles(r) <= MaxCantidad
  {
    StateCountsPartition(r.numeros);
    TicketsAtMostCantidad(r);
  }

  /** `NumerosVendidos` counts exactly the positions holding a sold ticket. */
  lemma NumerosVendidosCountsSold(r: Rifa)
    ensures NumerosVendidos(r) == |set i | 0 <= i < |r.numeros| && r.numeros[i].estado == NumeroVendido|
    ensures NumerosVendidos(r) == |r.numeros| <==> forall i :: 0 <= i < |r.numeros| ==> Vendido(r.numeros[i])
  {
    CountIsPositionsSize(r.numeros, Vendido);
    assert Positions(r.numeros, Vendido) ==
           set i | 0 <= i < |r.numeros| && r.numeros[i].estado == NumeroVendido;
    CountFullIff(r.numeros, Vendido);
  }

  /** With at most `cantidad_numeros` sold, the percentage is in [0, 100] and is 100 exactly when all are sold. */
  lemma PorcentajeBounds(r: Rifa)
    requires NumerosVendidos(r) <= r.cantidadNumeros
    ensures 0.0 <= PorcentajeVendido(r) <= 100.0
    ensures PorcentajeVendido(r) == 100.0 <==> r.cantidadNumeros > 0 && NumerosVendidos(r) == r.cantidadNumeros
  {
    if r.cantidadNumeros > 0 {
      SoldPercentFull(NumerosVendidos(r), r.cantidadNumeros);
    }
  }

  /** Over a positive total, the percentage is 100 exactly when everything is sold. */
  lemma SoldPercentFull(sold: nat, total: nat)
    requires total > 0
    ensures SoldPercent(sold, total) == 100.0 <==> sold == total
  {
    var c := total as real;
    var v := sold as real;
    var p := SoldPercent(sold, total);
    assert p * c == v * 100.0;
    if p == 100.0 {
      assert 100.0 * c == v * 100.0;
    }
    if sold == total {
      assert v / c == 1.0;
    }
  }

  /**
   For unique in-range ticket numbers the percentage is in [0, 100], and it is
   100 exactly when every number `1..cantidad_numeros` has a ticket and all
   of them are sold.
   */
  lemma PorcentajeOfWellNumbered(r: Rifa)
    requires UniqueNumeros(r.numeros) && NumbersInRange(r)
    ensures 0.0 <= PorcentajeVendido(r) <= 100.0
    ensures PorcentajeVendido(r) == 100.0 <==>
            && r.cantidadNumeros > 0
            && NumberSet(r.numeros) == UpTo(r.cantidadNumeros)
            && forall i :: 0 <= i < |r.numeros| ==> Vendido(r.numeros[i])
  {
    TicketsAtMostCantidad(r);
    PorcentajeBounds(r);
    NumerosVendidosCountsSold(r);
    NumberSetSize(r.numeros);
    if NumberSet(r.numeros) == UpTo(r.cantidadNumeros) {
      assert |r.numeros| == r.cantidadNumeros;
    }
  }

  /**
   A raffle passing validation is priced at 0.01 or more (the validator as
   written also rejects 0.01), has between 1 and 100000 numbers and a
   per-user limit of at least 1; with numbers in range its aggregates stay
   within those bounds.
   */
  lemma ValidRifaAggregates(r: Rifa)
    requires RifaValid(r) && NumbersInRange(r)
    ensures r.precioNumero >= MinPrecio && MinCantidad <= r.cantidadNumeros <= MaxCantidad
    ensures PrecioValidAsWritten(r.precioNumero) <==> r.precioNumero != MinPrecio
    ensures r.numerosPorUsuario >= MinNumerosPorUsuario
    ensures NumerosVendidos(r) + NumerosDisponibles(r) == r.cantidadNumeros
    ensures 0 <= NumerosVendidos(r) <= MaxCantidad && 0 <= NumerosDisponibles(r) <= MaxCantidad
    ensures 0.0 <= PorcentajeVendido(r) <= 100.0
  {
    TicketsAtMostCantidad(r);
    DisponiblesAccount(r);
    PorcentajeBounds(r);
  }

  /**
   Open means status `activa` with the draw still ahead: whatever the time,
   no other status is open, and an open raffle closes for good once the draw
   time arrives.
   */
  lemma EstaActivaWindow(r: Rifa, earlier: int, later: int)
    requires earlier <= later
    ensures EstaActiva(r, later) <==> r.estado == RifaActiva && later < r.fechaSorteo
    ensures r.estado != RifaActiva ==> !EstaActiva(r, earlier) && !EstaActiva(r, later)
    ensures EstaActiva(r, later) ==> EstaActiva(r, earlier)
    ensures earlier >= r.fechaSorteo ==> !EstaActiva(r, later)
  {
  }

  /** Saving twice is saving once, and saving never changes aggregates. */
  lemma SaveIdempotent(r: Rifa, slugify: string -> string)
    ensures Save(Save(r, slugify), slugify) == Save(r, slugify)
    ensures NumerosVendidos(Save(r, slugify)) == NumerosVendidos(r)
    ensures PorcentajeVendido(Save(r, slugify)) == PorcentajeVendido(r)
  {
  }

  // ---------------------------------------------------------------------
  // Transaccion
  // ---------------------------------------------------------------------

  /** A purchase: `numeros` are the ids of the selected tickets, `montoTotal` is in hundredths. */
  datatype Transaccion = Transaccion(
    usuario: int,
    rifa: int,
    numeros: set<int>,
    montoTotal: int,
    estado: string,
    codigoTransaccion: string,
    metodoPago: string)

  /** A new transaction: pending, with blank code and payment method and no tickets yet. */
  function NewTransaccion(usuario: int, rifa: int, montoTotal: int): (t: Transaccion)
    ensures t.usuario == usuario && t.rifa == rifa && t.montoTotal == montoTotal
    ensures t.estado == TransaccionPendiente && IsChoice(TransaccionEstados, t.estado)
    ensures t.codigoTransaccion == "" && t.metodoPago == "" && t.numeros == {}
    ensures TransaccionValid(t) <==> -PrecioLimit < montoTotal < PrecioLimit
  {
    assert TransaccionEstados[0].0 == TransaccionPendiente;
    Transaccion(usuario, rifa, {}, montoTotal, TransaccionPendiente, "", "")
  }

  /**
   Every field validator of `Transaccion` passes: the total fits
   `max_digits=10, decimal_places=2`, the status is one of the four
   transaction states, and code and payment method fit in 50 characters.
   */
  function TransaccionValid(t: Transaccion): (ok: bool)
    ensures ok <==>
            && -PrecioLimit < t.montoTotal < PrecioLimit
            && t.estado in {TransaccionPendiente, TransaccionCompletada, TransaccionCancelada, TransaccionRechazada}
            && |t.codigoTransaccion| <= MaxCodigo && |t.metodoPago| <= MaxMetodoPago
  {
    assert TransaccionEstados[0].0 == TransaccionPendiente && TransaccionEstados[1].0 == TransaccionCompletada;
    assert TransaccionEstados[2].0 == TransaccionCancelada && TransaccionEstados[3].0 == TransaccionRechazada;
    && -PrecioLimit < t.montoTotal < PrecioLimit
    && IsChoice(TransaccionEstados, t.estado) && |t.estado| <= MaxEstado
    && |t.codigoTransaccion| <= MaxCodigo
    && |t.metodoPago| <= MaxMetodoPago
  }

  /** `codigo_transaccion` is `unique=True`. */
  predicate UniqueCodes(ts: seq<Transaccion>)
  {
    forall i, j :: 0 <= i < j < |ts| ==> ts[i].codigoTransaccion != ts[j].codigoTransaccion
  }

  /**
   The code may be blank but must be unique, and nothing in the model fills
   it: two transactions left with the default blank code cannot both be stored.
   */
  lemma BlankCodesCollide(ts: seq<Transaccion>, i: int, j: int)
    requires 0 <= i < j < |ts|
    requires ts[i].codigoTransaccion == "" && ts[j].codigoTransaccion == ""
    ensures !UniqueCodes(ts)
  {
  }

  // ---------------------------------------------------------------------
  // `numeros_vendidos` as the source writes it
  // ---------------------------------------------------------------------

  /**
   Keywords a `filter(...)` on `Numero` resolves: its fields, the `_id`
   columns of its foreign keys, `pk`, and the reverse relations declared by
   `Transaccion.numeros` and `Ganador.numero_ganador`. Python properties
   such as `vendido` are not among them.
   */
  const NumeroLookups: set<string> := {
    "pk", "id", "rifa", "rifa_id", "numero", "estado", "fecha_reserva", "fecha_compra",
    "comprador", "comprador_id", "transacciones", "premios_ganados"
  }

  datatype QueryError = FieldError(keyword: string)

  /**
   `ns.filter(<keyword>=...).count()`, where `keep` is what the lookup means
   row by row: the keyword is resolved before any row is read, and an unknown
   keyword raises `FieldError`.
   */
  function FilteredCount(ns: seq<Numero>, keyword: string, keep: Numero -> bool): (res: Result<nat, QueryError>)
    ensures res.Failure? <==> keyword !in NumeroLookups
    ensures res.Failure? ==> res.error == FieldError(keyword)
    ensures res.Success? ==> res.value == Count(ns, keep) == |Positions(ns, keep)|
  {
    CountIsPositionsSize(ns, keep);
    if keyword in NumeroLookups then Success(Count(ns, keep)) else Failure(FieldError(keyword))
  }

  /** `numeros_vendidos` as written: it filters on the property `vendido` and always raises. */
  function NumerosVendidosAsWritten(r: Rifa): (res: Result<nat, QueryError>)
    ensures res == Failure(FieldError("vendido"))
  {
    FilteredCount(r.numeros, "vendido", Vendido)
  }

  /** `porcentaje_vendido` as written: only the zero-count guard avoids the failing count. */
  function PorcentajeVendidoAsWritten(r: Rifa): (res: Result<real, QueryError>)
    ensures r.cantidadNumeros == 0 <==> res == Success(0.0)
    ensures r.cantidadNumeros > 0 ==> res == Failure(FieldError("vendido"))
  {
    if r.cantidadNumeros == 0 then Success(0.0)
    else match NumerosVendidosAsWritten(r)
      case Success(v) => Success(SoldPercent(v, r.cantidadNumeros))
      case Failure(e) => Failure(e)
  }

  /** `numeros_disponibles` as written: it reads the failing count first, with no guard, and always raises. */
  function NumerosDisponiblesAsWritten(r: Rifa): (res: Result<int, QueryError>)
    ensures res == Failure(FieldError("vendido"))
  {
    match NumerosVendidosAsWritten(r)
    case Success(v) => Success(r.cantidadNumeros - v)
    case Failure(e) => Failure(e)
  }

  /** The intended query, `filter(estado='vendido')`, resolves and yields `NumerosVendidos`. */
  lemma NumerosVendidosIsEstadoFilter(r: Rifa)
    ensures FilteredCount(r.numeros, "estado", Vendido) == Success(NumerosVendidos(r))
  {
  }
}

=== FILE: results.dfy ===
/** Optional values and results with an error, for fields that may be null and queries that may raise. */
module Results {

  datatype Option<T> = None | Some(value: T)

  datatype Result<T, E> = Success(value: T) | Failure(error: E)
}

=== FILE: seqs.dfy ===
/**
 Generic sequence vocabulary shared by the raffle model: counting and
 filtering with a predicate, and substring search.
 Django's `QuerySet.filter(...)` and `.count()` over an in-memory list are
 `Filter` and `Count` here; the substring test behind `icontains` (`LIKE '%q%'`) is `Contains`.
 */
module Seqs {

  /** Number of elements of `s` satisfying `p`. */
  function Count<T>(s: seq<T>, p: T -> bool): (n: nat)
    ensures n <= |s|
  {
    if |s| == 0 then 0 else (if p(s[0]) then 1 else 0) + Count(s[1..], p)
  }

  /** The elements of `s` satisfying `p`, in their original order. */
  function Filter<T>(s: seq<T>, p: T -> bool): (r: seq<T>)
    ensures |r| == Count(s, p)
    ensures forall i :: 0 <= i < |r| ==> r[i] in s && p(r[i])
    ensures forall i :: 0 <= i < |s| && p(s[i]) ==> s[i] in r
  {
    if |s| == 0 then []
    else if p(s[0]) then [s[0]] + Filter(s[1..], p)
    else Filter(s[1..], p)
  }

  /** Counting distributes over concatenation. */
  lemma {:induction false} CountAppend<T>(a: seq<T>, b: seq<T>, p: T -> bool)
    ensures Count(a + b, p) == Count(a, p) + Count(b, p)
  {
    if |a| == 0 {
      assert a + b == b;
    } else {
      assert (a + b)[1..] == a[1..] + b;
      CountAppend(a[1..], b, p);
    }
  }

  /** The positions of `s` whose element satisfies `p`. */
  ghost function Positions<T>(s: seq<T>, p: T -> bool): set<int>
  {
    set i | 0 <= i < |s| && p(s[i])
  }

  /** `Count` agrees with an independent definition: the number of positions satisfying `p`. */
  lemma {:induction false} CountIsPositionsSize<T>(s: seq<T>, p: T -> bool)
    ensures Count(s, p) == |Positions(s, p)|
  {
    if |s| == 0 {
      assert Positions(s, p) == {};
    } else {
      var k := |s| - 1;
      var front := s[..k];
      CountIsPositionsSize(front, p);
      assert s == front + [s[k]];
      CountAppend(front, [s[k]], p);
      assert Count([s[k]], p) == (if p(s[k]) then 1 else 0) by {
        assert [s[k]][1..] == [];
      }
      if p(s[k]) {
        assert Positions(s, p) == Positions(front, p) + {k};
        assert k !in Positions(front, p);
      } else {
        assert Positions(s, p) == Positions(front, p);
      }
    }
  }

  /** Every element satisfies `p` exactly when all of them are counted. */
  lemma {:induction false} CountFullIff<T>(s: seq<T>, p: T -> bool)
    ensures Count(s, p) == |s| <==> forall i :: 0 <= i < |s| ==> p(s[i])
  {
    if |s| > 0 {
      CountFullIff(s[1..], p);
      assert Count(s[1..], p) <= |s| - 1;
      if forall i :: 0 <= i < |s[1..]| ==> p(s[1..][i]) {
        if p(s[0]) {
          forall i | 0 <= i < |s|
            ensures p(s[i])
          {
            if i > 0 {
              assert s[i] == s[1..][i - 1];
            }
          }
        }
      } else {
        var j :| 0 <= j < |s[1..]| && !p(s[1..][j]);
        assert !p(s[j + 1]);
      }
    }
  }

  /** Two predicates that never hold together count at most `|s|` elements between them. */
  lemma {:induction false} CountDisjoint<T>(s: seq<T>, p: T -> bool, q: T -> bool)
    requires forall x :: !(p(x) && q(x))
    ensures Count(s, p) + Count(s, q) <= |s|
  {
    if |s| > 0 {
      CountDisjoint(s[1..], p, q);
    }
  }

  /** A predicate and its negation together count every element. */
  lemma {:induction false} CountComplement<T>(s: seq<T>, p: T -> bool, q: T -> bool)
    requires forall x :: q(x) == !p(x)
    ensures Count(s, p) + Count(s, q) == |s|
  {
    if |s| > 0 {
      CountComplement(s[1..], p, q);
    }
  }

  /** Filtering with a predicate every element satisfies changes nothing. */
  lemma {:induction false} FilterKeepsAll<T>(s: seq<T>, p: T -> bool)
    requires forall i :: 0 <= i < |s| ==> p(s[i])
    ensures Filter(s, p) == s
  {
    if |s| > 0 {
      assert p(s[0]);
      FilterKeepsAll(s[1..], p);
      assert [s[0]] + s[1..] == s;
    }
  }

  /** Filtering depends only on the values the predicate takes. */
  lemma {:induction false} FilterExtensional<T>(s: seq<T>, p: T -> bool, q: T -> bool)
    requires forall x :: p(x) == q(x)
    ensures Filter(s, p) == Filter(s, q)
  {
    if |s| > 0 {
      FilterExtensional(s[1..], p, q);
    }
  }

  /** Two filters in a row are one filter with the conjunction. */
  lemma {:induction false} FilterTwice<T>(s: seq<T>, p: T -> bool, q: T -> bool, both: T -> bool)
    requires forall x :: both(x) == (p(x) && q(x))
    ensures Filter(Filter(s, p), q) == Filter(s, both)
  {
    if |s| > 0 {
      FilterTwice(s[1..], p, q, both);
      if p(s[0]) {
        var rest := Filter(s[1..], p);
        assert ([s[0]] + rest)[1..] == rest;
      }
    }
  }

  /**
   `Filter` agrees with an independent description: every element occurs in
   the result as often as in `s` when it satisfies `p`, and not at all otherwise.
   */
  lemma {:induction false} FilterMultiset<T>(s: seq<T>, p: T -> bool)
    ensures forall x :: multiset(Filter(s, p))[x] == if p(x) then multiset(s)[x] else 0
  {
    if |s| > 0 {
      FilterMultiset(s[1..], p);
      assert s == [s[0]] + s[1..];
      assert multiset(s) == multiset([s[0]]) + multiset(s[1..]);
      if p(s[0]) {
        assert multiset(Filter(s, p)) == multiset([s[0]]) + multiset(Filter(s[1..], p));
      }
    }
  }

  /** `needle` occurs as a contiguous run inside `hay`, the substring test behind `icontains`. */
  predicate Contains<T(==)>(hay: seq<T>, needle: seq<T>)
    decreases |hay|
  {
    if |needle| > |hay| then false
    else if hay[..|needle|] == needle then true
    else if |hay| == 0 then false
    else Contains(hay[1..], needle)
  }

  /** `needle` sits in `hay` starting at position `k`. */
  predicate OccursAt<T(==)>(hay: seq<T>, needle: seq<T>, k: int)
  {
    0 <= k && k + |needle| <= |hay| && hay[k..k + |needle|] == needle
  }

  /** An occurrence past the first position of `hay` is an occurrence in its tail, one position earlier. */
  lemma OccursShift<T>(hay: seq<T>, needle: seq<T>, k: int)
    requires |hay| > 0 && k >= 0
    ensures OccursAt(hay, needle, k + 1) <==> OccursAt(hay[1..], needle, k)
  {
    if k + 1 + |needle| <= |hay| {
      assert hay[k + 1..k + 1 + |needle|] == hay[1..][k..k + |needle|];
    }
  }

  /** `Contains` means: `needle` occurs at some position of `hay`. */
  lemma {:induction false} ContainsIff<T>(hay: seq<T>, needle: seq<T>)
    ensures Contains(hay, needle) <==> exists k :: OccursAt(hay, needle, k)
  {
    if |needle| > |hay| {
    } else if hay[..|needle|] == needle {
      assert OccursAt(hay, needle, 0);
    } else {
      ContainsIff(hay[1..], needle);
      if Contains(hay[1..], needle) {
        var k :| OccursAt(hay[1..], needle, k);
        OccursShift(hay, needle, k);
      } else {
        forall k | OccursAt(hay, needle, k)
          ensures false
        {
          if k > 0 {
            OccursShift(hay, needle, k - 1);
          }
        }
      }
    }
  }
}

=== FILE: views.dfy ===
/**
 The raffle listing page (`mis_rifas_view` in `main/views.py`) as a pure
 function of the request parameters and the stored raffles: optional
 case-insensitive search on name and description, optional status filter,
 an ordering key taken from a fixed allow-list, pages of twelve, and status
 counts over all raffles.

 The database's case folding, the ORM's ordering and the parsing of the
 `page` parameter are not modelled; they are parameters (`fold`, `orderBy`)
 or an already-classified value (`PageArg`).
 */
module Views {
  import opened Results
  import opened Seqs
  import opened Models

  const PageSize: nat := 12

  const AllEstados: string := "all"

  const DefaultSort: string := "-fecha_creacion"

  /** The allow-list of ordering keys with their labels, in display order. */
  const ValidSorts: seq<(string, string)> := [
    ("-fecha_creacion", "Más recientes"),
    ("fecha_creacion", "Más antiguas"),
    ("nombre", "Nombre A-Z"),
    ("-nombre", "Nombre Z-A"),
    ("fecha_sorteo", "Sorteo próximo"),
    ("-fecha_sorteo", "Sorteo lejano"),
    ("-numeros_vendidos", "Más vendidas"),
    ("numeros_vendidos", "Menos vendidas")
  ]

  predicate IsValidSort(key: string)
  {
    exists i :: 0 <= i < |ValidSorts| && ValidSorts[i].0 == key
  }

  /** The `page` parameter once read: an integer, or text that is not one. */
  datatype PageArg = PageNumber(n: int) | NotAnInteger

  /** The query-string parameters the view reads; `None` when absent. */
  datatype Request = Request(
    page: Option<PageArg>,
    sort: Option<string>,
    estado: Option<string>,
    q: Option<string>)

  /** `page`, default 1: an absent parameter shows the first page, whatever the number of results. */
  function PageParam(req: Request): (a: PageArg)
    ensures req.page.Some? ==> a == req.page.value
    ensures req.page.None? ==> forall count: nat :: ResolvePage(a, count) == 1
  {
    match req.page
    case None => PageNumber(1)
    case Some(a) => a
  }

  /** `sort`, default `-fecha_creacion`: an absent parameter orders newest first. */
  function SortParam(req: Request): (s: string)
    ensures req.sort.Some? ==> s == req.sort.value
    ensures req.sort.None? ==> IsValidSort(s) && EffectiveSort(s) == DefaultSort
  {
    assert ValidSorts[0].0 == DefaultSort;
    match req.sort
    case None => DefaultSort
    case Some(s) => s
  }

  /** `estado`, default `'all'`: an absent parameter filters nothing out. */
  function EstadoParam(req: Request): (e: string)
    ensures req.estado.Some? ==> e == req.estado.value
    ensures req.estado.None? ==> forall rifas: seq<Rifa> :: ApplyEstado(rifas, e) == rifas
  {
    match req.estado
    case None => AllEstados
    case Some(e) => e
  }

  /** `q`, default empty: an absent parameter searches nothing out. */
  function QueryParam(req: Request): (q: string)
    ensures req.q.Some? ==> q == req.q.value
    ensures req.q.None? ==> forall rifas: seq<Rifa>, fold: string -> string :: ApplySearch(rifas, q, fold) == rifas
  {
    match req.q
    case None => ""
    case Some(q) => q
  }

  // ---------------------------------------------------------------------
  // Search and status filter
  // ---------------------------------------------------------------------

  /** `nombre__icontains=q | descripcion__icontains=q`, with `fold` the database's case folding. */
  predicate MatchesSearch(fold: string -> string, q: string, r: Rifa)
  {
    Contains(fold(r.nombre), fold(q)) || Contains(fold(r.descripcion), fold(q))
  }

  function SearchFilter(fold: string -> string, q: string): Rifa -> bool
  {
    (r: Rifa) => MatchesSearch(fold, q, r)
  }

  function EstadoFilter(estado: string): Rifa -> bool
  {
    (r: Rifa) => r.estado == estado
  }

  /** The search step: skipped for an empty query. */
  function ApplySearch(rifas: seq<Rifa>, q: string, fold: string -> string): (res: seq<Rifa>)
    ensures q == "" ==> res == rifas
    ensures forall i :: 0 <= i < |res| ==> res[i] in rifas && (q == "" || MatchesSearch(fold, q, res[i]))
    ensures forall i :: 0 <= i < |rifas| && (q == "" || MatchesSearch(fold, q, rifas[i])) ==> rifas[i] in res
  {
    if q == "" then rifas else Filter(rifas, SearchFilter(fold, q))
  }

  /** The status step: skipped for the `'all'` sentinel. */
  function ApplyEstado(rifas: seq<Rifa>, estado: string): (res: seq<Rifa>)
    ensures estado == AllEstados ==> res == rifas
    ensures forall i :: 0 <= i < |res| ==> res[i] in rifas && (estado == AllEstados || res[i].estado == estado)
    ensures forall i :: 0 <= i < |rifas| && (estado == AllEstados || rifas[i].estado == estado) ==> rifas[i] in res
  {
    if estado == AllEstados then rifas else Filter(rifas, EstadoFilter(estado))
  }

  /** The raffles that survive both steps, before ordering. */
  function Selected(all: seq<Rifa>, q: string, estado: string, fold: string -> string): seq<Rifa>
  {
    ApplyEstado(ApplySearch(all, q, fold), estado)
  }

  /** Whether one raffle passes both steps. */
  predicate Keep(fold: string -> string, q: string, estado: string, r: Rifa)
  {
    (q == "" || MatchesSearch(fold, q, r)) && (estado == AllEstados || r.estado == estado)
  }

  function KeepFilter(fold: string -> string, q: string, estado: string): Rifa -> bool
  {
    (r: Rifa) => Keep(fold, q, estado, r)
  }

  /**
   The two steps together are one filter of all raffles by the conjunction
   of the search and status conditions: the order of `all` is kept, and a
   raffle is selected exactly when it passes both.
   */
  lemma SelectedIsOneFilter(all: seq<Rifa>, q: string, estado: string, fold: string -> string)
    ensures Selected(all, q, estado, fold) == Filter(all, KeepFilter(fold, q, estado))
    ensures forall r :: r in Selected(all, q, estado, fold) <==> r in all && Keep(fold, q, estado, r)
  {
    var keep := KeepFilter(fold, q, estado);
    if q == "" {
      if estado == AllEstados {
        FilterKeepsAll(all, keep);
      } else {
        FilterExtensional(all, EstadoFilter(estado), keep);
      }
    } else {
      if estado == AllEstados {
        FilterExtensional(all, SearchFilter(fold, q), keep);
      } else {
        FilterTwice(all, SearchFilter(fold, q), EstadoFilter(estado), keep);
      }
    }
    var sel := Filter(all, keep);
    forall r
      ensures r in sel <==> r in all && Keep(fold, q, estado, r)
    {
      if r in sel {
        var i :| 0 <= i < |sel| && sel[i] == r;
      }
      if r in all && Keep(fold, q, estado, r) {
        var i :| 0 <= i < |all| && all[i] == r;
      }
    }
  }

  // ---------------------------------------------------------------------
  // Ordering key
  // ---------------------------------------------------------------------

  /** The key the listing is ordered by: the requested one if allowed, else newest first. */
  function EffectiveSort(sortBy: string): (key: string)
    ensures IsValidSort(key)
    ensures IsValidSort(sortBy) ==> key == sortBy
    ensures !IsValidSort(sortBy) ==> key == DefaultSort
  {
    assert ValidSorts[0].0 == DefaultSort;
    if IsValidSort(sortBy) then sortBy else DefaultSort
  }

  /**
   Keywords the ORM can order `Rifa` rows by: its fields, `pk`, and the
   reverse relations other models declare on it.
   */
  const RifaLookups: set<string> := {
    "pk", "id", "nombre", "slug", "descripcion", "fecha_creacion", "fecha_sorteo",
    "fecha_actualizacion", "precio_numero", "cantidad_numeros", "estado",
    "premio_principal", "imagen", "numeros_por_usuario", "numeros", "transacciones", "ganador"
  }

  /** The field an ordering key names, without its descending-order `-`. */
  function OrderField(key: string): string
  {
    if |key| > 0 && key[0] == '-' then key[1..] else key
  }

  /**
   Two allow-listed keys name the property `numeros_vendidos`, which is no
   column of `Rifa`: the database cannot order by them.
   */
  lemma SoldCountKeysNotOrderable()
    ensures IsValidSort("-numeros_vendidos") && IsValidSort("numeros_vendidos")
    ensures OrderField(EffectiveSort("-numeros_vendidos")) !in RifaLookups
    ensures OrderField(EffectiveSort("numeros_vendidos")) !in RifaLookups
  {
    assert ValidSorts[6].0 == "-numeros_vendidos";
    assert ValidSorts[7].0 == "numeros_vendidos";
  }

  // ---------------------------------------------------------------------
  // Pagination (twelve per page, no orphans, empty first page allowed)
  // ---------------------------------------------------------------------

  /** Number of pages for `count` items: never 0, and only the last may be short. */
  function NumPages(count: nat): (n: nat)
    ensures n >= 1
    ensures count <= n * PageSize
    ensures n == 1 || (n - 1) * PageSize < count
  {
    var hits := if count > 1 then count else 1;
    (hits + PageSize - 1) / PageSize
  }

  /** The page actually shown: a non-integer asks for page 1, an out-of-range number for the last page. */
  function ResolvePage(arg: PageArg, count: nat): (k: int)
    ensures 1 <= k <= NumPages(count)
    ensures arg.PageNumber? && 1 <= arg.n <= NumPages(count) ==> k == arg.n
    ensures arg.PageNumber? && (arg.n < 1 || arg.n > NumPages(count)) ==> k == NumPages(count)
    ensures arg.NotAnInteger? ==> k == 1
  {
    match arg
    case NotAnInteger => 1
    case PageNumber(n) => if n < 1 || n > NumPages(count) then NumPages(count) else n
  }

  /** Page `k` of `ordered`: positions `(k-1)*12` up to `k*12`, cut at the end of the list. */
  function PageItems(ordered: seq<Rifa>, k: int): (items: seq<Rifa>)
    requires 1 <= k <= NumPages(|ordered|)
    ensures |items| <= PageSize
    ensures (k - 1) * PageSize <= |ordered|
    ensures items == ordered[(k - 1) * PageSize .. if k * PageSize < |ordered| then k * PageSize else |ordered|]
    ensures k < NumPages(|ordered|) ==> |items| == PageSize
  {
    var bottom := (k - 1) * PageSize;
    var top := if bottom + PageSize >= |ordered| then |ordered| else bottom + PageSize;
    ordered[bottom..top]
  }

  /** Every position of the list appears on exactly the page and offset its index gives. */
  lemma PagesCoverList(ordered: seq<Rifa>, i: int)
    requires 0 <= i < |ordered|
    ensures 1 <= i / PageSize + 1 <= NumPages(|ordered|)
    ensures i % PageSize < |PageItems(ordered, i / PageSize + 1)|
    ensures PageItems(ordered, i / PageSize + 1)[i % PageSize] == ordered[i]
  {
    var k := i / PageSize + 1;
    var n := NumPages(|ordered|);
    assert i == (k - 1) * PageSize + i % PageSize;
    assert |ordered| <= n * PageSize;
  }

  // ---------------------------------------------------------------------
  // The view
  // ---------------------------------------------------------------------

  datatype Page = Page(items: seq<Rifa>, number: int, numPages: nat)

  /** What the view hands to its template. */
  datatype Context = Context(
    rifas: Page,
    totalRifas: nat,
    rifasActivas: nat,
    rifasCompletadas: nat,
    currentSort: string,
    currentFilter: string,
    searchQuery: string,
    sortOptions: seq<(string, string)>)

  /** Number of stored raffles with status `estado`. */
  function StatusCount(all: seq<Rifa>, estado: string): (n: nat)
    ensures n <= |all|
  {
    Count(all, EstadoFilter(estado))
  }

  /** The listing ordered by the effective key, before paging. */
  function Ordered(req: Request, all: seq<Rifa>, fold: string -> string,
                   orderBy: (seq<Rifa>, string) -> seq<Rifa>): seq<Rifa>
  {
    orderBy(Selected(all, QueryParam(req), EstadoParam(req), fold), EffectiveSort(SortParam(req)))
  }

  /**
   `mis_rifas_view`: `orderBy(rows, key)` stands for `rows.order_by(key)` and
   `fold` for the database's case folding.
   */
  function MisRifasView(req: Request, all: seq<Rifa>, fold: string -> string,
                        orderBy: (seq<Rifa>, string) -> seq<Rifa>): (ctx: Context)
    ensures |ctx.rifas.items| <= PageSize
    ensures 1 <= ctx.rifas.number <= ctx.rifas.numPages
    ensures ctx.rifas.numPages == NumPages(|Ordered(req, all, fold, orderBy)|)
    ensures ctx.rifas.number == ResolvePage(PageParam(req), |Ordered(req, all, fold, orderBy)|)
    ensures ctx.rifas.items == PageItems(Ordered(req, all, fold, orderBy), ctx.rifas.number)
    ensures forall i :: 0 <= i < |ctx.rifas.items| ==> ctx.rifas.items[i] in Ordered(req, all, fold, orderBy)
    ensures PageParam(req).PageNumber? && 1 <= PageParam(req).n <= ctx.rifas.numPages ==>
              ctx.rifas.number == PageParam(req).n
    ensures ctx.totalRifas == |all|
    ensures ctx.rifasActivas == StatusCount(all, RifaActiva)
    ensures ctx.rifasCompletadas == StatusCount(all, RifaCompletada)
    ensures ctx.rifasActivas + ctx.rifasCompletadas <= ctx.totalRifas
    ensures ctx.currentSort == SortParam(req) && ctx.currentFilter == EstadoParam(req)
    ensures ctx.searchQuery == QueryParam(req)
    ensures ctx.sortOptions == ValidSorts
  {
    var ordered := Ordered(req, all, fold, orderBy);
    var k := ResolvePage(PageParam(req), |ordered|);
    var items := PageItems(ordered, k);
    var activas := StatusCount(all, RifaActiva);
    var completadas := StatusCount(all, RifaCompletada);
    CountDisjoint(all, EstadoFilter(RifaActiva), EstadoFilter(RifaCompletada));
    Context(Page(items, k, NumPages(|ordered|)), |all|, activas, completadas,
            SortParam(req), EstadoParam(req), QueryParam(req), ValidSorts)
  }

  /**
   An unknown ordering key is replaced by newest-first for the query, yet the
   page still reports the key as requested.
   */
  lemma UnknownSortReportedAsRequested(req: Request, all: seq<Rifa>, fold: string -> string,
                                       orderBy: (seq<Rifa>, string) -> seq<Rifa>)
    requires !IsValidSort(SortParam(req))
    ensures Ordered(req, all, fold, orderBy) ==
            orderBy(Selected(all, QueryParam(req), EstadoParam(req), fold), DefaultSort)
    ensures MisRifasView(req, all, fold, orderBy).currentSort == SortParam(req) != DefaultSort
  {
    assert ValidSorts[0].0 == DefaultSort;
  }

  /**
   The status counts depend on the stored raffles only: two requests with
   any search, filter, ordering or page give the same counts.
   */
  lemma StatisticsIgnoreRequest(a: Request, b: Request, all: seq<Rifa>, fold: string -> string,
                                orderBy: (seq<Rifa>, string) -> seq<Rifa>)
    ensures MisRifasView(a, all, fold, orderBy).totalRifas == MisRifasView(b, all, fold, orderBy).totalRifas
    ensures MisRifasView(a, all, fold, orderBy).rifasActivas == MisRifasView(b, all, fold, orderBy).rifasActivas
    ensures MisRifasView(a, all, fold, orderBy).rifasCompletadas == MisRifasView(b, all, fold, orderBy).rifasCompletadas
  {
  }

  /**
   When the ordering only rearranges its rows, every raffle on the page
   shown is a stored raffle passing both the search and the status filter.
   */
  lemma PageShowsOnlySelected(req: Request, all: seq<Rifa>, fold: string -> string,
                              orderBy: (seq<Rifa>, string) -> seq<Rifa>)
    requires forall rows, key :: multiset(orderBy(rows, key)) == multiset(rows)
    ensures forall r :: r in MisRifasView(req, all, fold, orderBy).rifas.items ==>
              r in all && Keep(fold, QueryParam(req), EstadoParam(req), r)
  {
    var ctx := MisRifasView(req, all, fold, orderBy);
    var sel := Selected(all, QueryParam(req), EstadoParam(req), fold);
    var ordered := Ordered(req, all, fold, orderBy);
    SelectedIsOneFilter(all, QueryParam(req), EstadoParam(req), fold);
    assert multiset(ordered) == multiset(sel);
    forall r | r in ctx.rifas.items
      ensures r in all && Keep(fold, QueryParam(req), EstadoParam(req), r)
    {
      assert r in ordered;
      assert r in multiset(ordered);
      assert r in sel;
    }
  }
}
